=== FILE: README.md ===
# Shadow document store, modelled in Dafny

This project models the in-memory document store of the `shadow` service
(`internal/pkg/db`). It has three layers:

- **Document** (module `Docs`, `docs.dfy`). One entry's content is a map from
  section name to an ordered list of items. Each item is a bag of JSON fields
  that must carry an `"id"`. `AddItem` upserts by case-insensitive id: it
  replaces the first match where it stands, or appends at the tail.
  `RemoveItem` deletes the first match. An empty id deletes the whole section.
- **Index** (module `Indexes`, `indexes.dfy`). A map from entry name to the
  content hash of the entry's stored bytes. It has upsert, remove, comma-ok
  lookup, an emptiness test, and the `{name, hash}` record list it is
  serialised from.
- **Entry** (module `Entries`, `entries.dfy`). The orchestrator. It holds
  every document, a per-entry JSON cache, the index, the serialised-index
  cache, and the key-value store that documents are written through to.
  Each public operation is one atomic step from state to state.

Foreign calls are function-valued fields of a `Codec` passed to the
operations:

- `json.Unmarshal` of an item is `parseItem`.
- `Document.Load` is `parseDoc`.
- `Document.ToJson` is `serDoc`.
- `json.Marshal` of the index records is `serIndex`.
- `Md5Bytes` is `hash`.

`RoundTrip(c)` (`parseDoc(serDoc(d)) == Some(d)`) is a hypothesis of the
lemmas that need it, not a proved fact.

Each store write or delete takes a `bool` that says whether it succeeded.
This covers I/O errors reported by the store. `LoadEntry`
receives the store's full scan, or `None` when opening or reading failed.

The Go code asserts that each id it compares is a string, and panics on a
missing or non-string id. Such a panic becomes a precondition. `Docs.ScanFor` models the search loop
and its three endings: a match, the end of the list, or a panic. `AddSafe`
and `RemoveSafe` require that the loop does not panic.

Four behaviours of the code are worth stating explicitly:

- **No rollback.** A failed store write in `commit` leaves the changed
  document in memory, while the caches, the index and the store keep the old
  version. Nothing is rolled back, and the model proves the resulting
  divergence (`FailedWriteLeavesStaleCache`,
  `FailedCreateServesUnstoredDocument`, `RemoveItemDeletesEmptied`).
- **Load-time hash.** At load, the index hashes the raw stored bytes, but the
  cache holds the re-serialised document. So the coherence invariant relates
  `index[k]` to `hash(store[k])`, not to `hash(entryCache[k])`.
- **Skipped documents stay stored.** Stored documents that do not decode are
  skipped at load but remain in the store. The key sets of entries, entry
  cache and index are therefore always equal to each other and contained in
  the store's keys. They equal the store's keys exactly when every stored
  document decodes (`KeySetsAgree`).
- **Idempotent removal.** `RemoveItem` is idempotent when a section's
  ids are distinct up to case. `AddItem` keeps them distinct, but a loaded
  document need not have distinct ids.
  `RemoveItemTwiceDiffersOnDuplicates` shows two ids that differ only in case
  being removed one call at a time.

## Model

| member | source | states |
|---|---|---|
| Docs.IdEq | internal/pkg/db/doc.go:75 | Two ids are equal when they have the same length and each pair of characters is equal after lowering A-Z. This is case folding of ASCII letters only. |
| Docs.ScanFor | internal/pkg/db/doc.go:74-80 | The id search loop ends in one of three ways. It finds the first item whose id equals the given one up to case, with every earlier item having a string id and not matching. It runs off the end, with every item having a string id and none matching. Or it reaches an item without a string id (the panic), with every earlier item non-matching. |
| Docs.StringIdsNeverPanic | internal/pkg/db/doc.go:101-106 | A section whose ids are all strings never makes the search panic. |
| Docs.AddItem | internal/pkg/db/doc.go:53-88 | Undecodable bytes give a decode error. An item without `id` gives the not-found error. Only then does AddItem succeed. On success, the section names are the old ones plus the named section, and every other section is unchanged. A new or empty section ends up holding exactly the new item. |
| Docs.AddItemReplaces | internal/pkg/db/doc.go:73-80 | An id equal up to case to an existing one replaces the first such item at its position. The section length and every other position stay the same. |
| Docs.AddItemAppends | internal/pkg/db/doc.go:81-85 | An id matching no item is appended. The length grows by one, the old items are an unchanged prefix, and the new item is last. |
| Docs.AddItemKeepsIdsDistinct | internal/pkg/db/doc.go:65-86 | If a section's ids are distinct up to case before an upsert, they are distinct after it. |
| Docs.AddItemFoldsCase | internal/pkg/db/doc.go:75-76 | Id "ABC" replaces a stored item with id "abc" instead of adding a second item. |
| Docs.RemoveItem | internal/pkg/db/doc.go:90-108 | A missing section leaves the document as it is. An empty id removes exactly that section. Otherwise the first matching item is cut out and the rest keep their order, and with no match nothing changes. Other sections are never touched. |
| Docs.RemoveItemDropsOne | internal/pkg/db/doc.go:101-105 | Removing a matched item shortens the section by one. Items before it keep their positions, and items after it shift down by one. |
| Docs.RemoveItemKeepsIdsDistinct | internal/pkg/db/doc.go:101-107 | Removal keeps a section's ids distinct up to case. |
| Docs.RemoveItemIdempotent | internal/pkg/db/doc.go:90-108 | When a section's ids are distinct up to case, removing an id twice gives the same document as removing it once. |
| Docs.RemoveItemTwiceDiffersOnDuplicates | internal/pkg/db/doc.go:101-107 | With ids "a" and "A" in one section, each call removes only one of them, so the second call changes the document again. |
| Docs.IsEmpty | internal/pkg/db/doc.go:111-118 | The loop reports empty exactly when every section has zero items, including when there are no sections. |
| Indexes.Get | internal/pkg/db/index.go:37-40 | The lookup reports presence exactly when the name is in the index. It returns the stored hash when present and "" when absent. |
| Indexes.Add | internal/pkg/db/index.go:27-31 | After an upsert, the name maps to the new hash whether or not it was present before. Every other name keeps its lookup result. |
| Indexes.Remove | internal/pkg/db/index.go:33-35 | After a removal, the name reads as absent and every other name keeps its lookup result. Removing an absent name changes nothing. |
| Indexes.IsEmpty | internal/pkg/db/index.go:42-44 | The index is empty exactly when no name is in it. |
| Indexes.AddRemoveCancel | internal/pkg/db/index.go:27-35 | Adding a name that was absent and then removing it gives back the original index. |
| Indexes.ToJson | internal/pkg/db/index.go:46-53 | The record list has one record per index entry. The names are pairwise distinct, each record's hash is the index's value for its name, and every name appears. |
| Entries.LoadEntry | internal/pkg/db/entry.go:48-76 | A failed open or scan returns the error with nothing loaded. Otherwise, exactly the stored documents that decode become entries, each index hash is the hash of the stored bytes, and the index cache is filled only for a non-empty index. The result is coherent whatever order the keys are visited in. |
| Entries.KeySetsAgree | internal/pkg/db/entry.go:58-69 | In a coherent state, the entries' names equal the store's names exactly when every stored document decodes, and then the names of entries, entry cache, index and store are all the same set. |
| Entries.Commit | internal/pkg/db/entry.go:162-179 | A commit never changes the documents. A failed write returns the store error and changes nothing else. A successful write stores the document's serialisation, caches those same bytes, sets the entry's hash to their hash and no other, and recomputes the index cache from the new index. |
| Entries.DeleteEntry | internal/pkg/db/entry.go:181-192 | A failed delete returns the store error and changes nothing. A successful delete removes the name from the store, the documents, the entry cache and the index, keeps every other name's value, and clears the index cache instead of recomputing it. |
| Entries.RemoveEntry | internal/pkg/db/entry.go:78-82 | It succeeds exactly when the store delete succeeds. Afterwards the entry has no document, no cache and no hash, every other name keeps its stored bytes, document, cache and hash, and the index cache is cleared. A failure leaves the state unchanged. |
| Entries.AddItem | internal/pkg/db/entry.go:84-103 | An undecodable item or one without `id` returns that error with no change at all. Any failure leaves store, caches and index as they were. Success needs a valid item and a successful write; a valid item with a failed write gives the store error. Whenever the item is valid, the entry's document becomes the upserted document, even if the write then fails. After success, the store and the cache hold the live document's serialisation, the index holds its hash, and the index cache is the serialised index. Other names keep their stored bytes, cache and hash. |
| Entries.RemoveItem | internal/pkg/db/entry.go:105-121 | An unknown entry gives success with no change. For a known entry it succeeds exactly when the store call succeeds, whether or not an item matched. Any remaining document for the entry is the old one with the item removed. A failure is a store error and leaves store, caches and index as they were, while the entry keeps the changed document. On success, the entry stays exactly when the removal left its document non-empty: it is then stored, cached and hashed and the index cache is the serialised index; otherwise it is gone from store, entry cache and index and the index cache is cleared. No other name's document, stored bytes, cache or hash changes. |
| Entries.ToJson | internal/pkg/db/entry.go:123-144 | Cached bytes are returned as they are. An entry with neither cache nor document gives the null-entry error. Otherwise the document's serialisation is returned and becomes the entry's cache. |
| Entries.IndexToJson | internal/pkg/db/entry.go:146-160 | It always succeeds. A non-empty index cache is returned as is. Otherwise the serialised index is returned and becomes the index cache. |
| Entries.CommitKeepsCoherence | internal/pkg/db/entry.go:162-179 | A successful commit of any document keeps documents, caches, index and store coherent. |
| Entries.AddItemKeepsCoherence | internal/pkg/db/entry.go:84-103 | With successful writes, AddItem keeps the state coherent. |
| Entries.DeleteKeepsCoherence | internal/pkg/db/entry.go:181-192 | A successful delete keeps the state coherent, whatever document the entry held in memory just before it. |
| Entries.RemoveItemKeepsCoherence | internal/pkg/db/entry.go:105-121 | With successful store calls, RemoveItem keeps the state coherent, whether it commits or deletes. |
| Entries.RemoveEntryKeepsCoherence | internal/pkg/db/entry.go:181-192 | RemoveEntry keeps the state coherent whether the delete succeeds or fails. |
| Entries.ToJsonServesLiveDocument | internal/pkg/db/entry.go:123-144 | In a coherent state, reading an entry changes nothing. It returns the live document's serialisation, which loads back to the live document, or the null-entry error for an unknown name. |
| Entries.IndexToJsonServesLiveIndex | internal/pkg/db/entry.go:146-160 | In a coherent state, the index read returns the serialisation of the live index and leaves the state coherent. |
| Entries.FailedWriteLeavesStaleCache | internal/pkg/db/entry.go:95-102 | A failed write after a real change keeps the changed document, yet ToJson still serves the old cached bytes. Those bytes do not load to the live document, and the state is no longer coherent. |
| Entries.FailedCreateServesUnstoredDocument | internal/pkg/db/entry.go:88-95 | A failed write for a new entry leaves a document that neither the store nor the index has, yet ToJson serves its serialisation. |
| Entries.RemoveItemDeletesEmptied | internal/pkg/db/entry.go:113-118 | A removal that empties the document deletes the entry from store, documents, cache and index and clears the index cache. If that delete fails, the emptied document stays while store and cache still hold the old bytes. |
| Entries.RemovedEntryIsNotFound | internal/pkg/db/entry.go:78-82 | After a successful RemoveEntry, reading the entry gives the null-entry error and the index has no hash for it. |
| Entries.EntryLifecycle | internal/pkg/db/entry.go:84-121 | Starting from an empty store, one item is added to "facility-1" and read back as its serialisation, and the index lists exactly its hash. Removing the item deletes the entry, so the read gives the null-entry error and the index serialises empty. |

## Left out

- Concurrency. The `sync.RWMutex` is not modelled: each public operation is one atomic step. Note that `ToJson` and `IndexToJson` fill caches while holding only the read lock. Concurrent readers can therefore write the cache map at the same time, which a sequential model cannot show.
- JSON encoding and decoding, and MD5. These are uninterpreted fields of `Codec`. The decode/encode round trip is a hypothesis (`RoundTrip`), and a `json.Marshal` error is not modelled because the serialisers are total functions.
- The order of `Index.ToJson`'s records. Go's map order is random, and the record list is a method that picks any remaining name. `serIndex` takes the index map itself, so the serialised bytes abstract that order away.
- The store implementations. `internal/pkg/db/ldb.go` (goleveldb, recovery of a corrupted store on open) and `internal/pkg/db/fdb.go` (files) are not part of this model. The store is a map, and the success of each write or delete is a parameter. The `Database` interface in `internal/pkg/db/db.go` has no behaviour. `Close` only closes the store.
- `Docs.IdEq`: `strings.EqualFold` uses Unicode simple case folding. The model folds only the ASCII letters A-Z.
- `Entries.AddItem`, `Docs.AddItem`, `Docs.RemoveItem` and `Entries.RemoveItem`: a Go panic on a missing or non-string id is a precondition, not a modelled crash.
- A stored document that is the JSON literal `null`. `Document.Load` accepts it and leaves a nil section map (`internal/pkg/db/doc.go:46-49`), so `LoadEntry` admits the entry, and a later `AddItem` panics when it assigns into that nil map (`internal/pkg/db/doc.go:71`). `Docs.Document` has no nil value, so a codec either skips such a key at load or lets `AddItem` succeed; the service never writes `null` itself.
- A store that was never opened. Before `LoadEntry` succeeds the `Entry` has no store (`internal/pkg/db/entry.go:37`, `:70`), so a write or delete would dereference a nil store and panic. The model always has a store map.
- `Entries.LoadEntry` starts from a fresh `Entry`, as the service calls it once at startup. Logging of skipped keys is not modelled.

=== FILE: common.dfy ===
/** Shared vocabulary of the db package: bytes, optional values and the errors
    its operations report. */
module Common {

  newtype byte = x: int | 0 <= x < 256

  /** A byte slice as the store and the JSON encoder see it. */
  type Bytes = seq<byte>

  datatype Option<+T> = None | Some(value: T)

  /** The error values the package returns to its callers. */
  datatype Error =
    | DecodeError   // json.Unmarshal rejected the input bytes
    | MissingId     // errNotFound: the decoded item has no "id" key
    | NullEntry     // errNullEntry: no document and no cache for the entry
    | StoreError    // the key-value store reported a failure

  /** The outcome of an operation that returns only an error. */
  datatype Outcome = Pass | Fail(error: Error)

  /** The outcome of an operation that returns a value or an error. */
  datatype Result<+T> = Ok(value: T) | Err(error: Error)
}

=== FILE: docs.dfy ===
/** One entry's content: a map from section name to an ordered list of items,
    each item a bag of JSON fields that must carry an "id". */
module Docs {
  import opened Common

  /** A JSON field value. Only whether it is a string matters to the
      document; every other value is kept as opaque text. */
  datatype Value = Text(s: string) | Opaque(json: string)

  type Item = map<string, Value>

  type Document = map<string, seq<Item>>

  const IdKey := "id"

  /* ---------- case-insensitive id comparison ---------- */

  function Lower(ch: char): (r: char)
    ensures 'A' <= ch <= 'Z' ==> 'a' <= r <= 'z'
    ensures !('A' <= ch <= 'Z') ==> r == ch
  {
    if 'A' <= ch <= 'Z' then (ch as int - 'A' as int + 'a' as int) as char else ch
  }

  /** The case folding both sides of an id comparison go through. */
  function Fold(s: string): (f: string)
    ensures |f| == |s|
    ensures forall i :: 0 <= i < |s| ==> f[i] == Lower(s[i])
  {
    seq(|s|, i requires 0 <= i < |s| => Lower(s[i]))
  }

  /** strings.EqualFold, restricted to ASCII letters: equal length, and each
      pair of characters equal once A-Z are lowered. */
  predicate IdEq(a: string, b: string)
    ensures IdEq(a, b) <==> |a| == |b| && forall i :: 0 <= i < |a| ==> Lower(a[i]) == Lower(b[i])
  {
    Fold(a) == Fold(b)
  }

  /** An item whose "id" can be read as a string without a panic. */
  predicate HasStringId(it: Item) {
    IdKey in it && it[IdKey].Text?
  }

  predicate StringIds(items: seq<Item>) {
    forall j :: 0 <= j < |items| ==> HasStringId(items[j])
  }

  predicate Matches(it: Item, id: string) {
    HasStringId(it) && IdEq(it[IdKey].s, id)
  }

  /** k is the position of the first item of `items` whose id equals `id`. */
  predicate FirstMatch(items: seq<Item>, id: string, k: int) {
    && 0 <= k < |items|
    && Matches(items[k], id)
    && forall j :: 0 <= j < k ==> !Matches(items[j], id)
  }

  predicate NoMatch(items: seq<Item>, id: string) {
    forall j :: 0 <= j < |items| ==> !Matches(items[j], id)
  }

  /** Ids of a section are pairwise different up to case. */
  predicate DistinctIds(items: seq<Item>) {
    && StringIds(items)
    && forall i, j :: 0 <= i < j < |items| ==> !IdEq(items[i][IdKey].s, items[j][IdKey].s)
  }

  /* ---------- the search loop shared by AddItem and RemoveItem ---------- */

  /** What the search loop over a section in AddItem and RemoveItem ends in:
      it breaks at a match, runs off the end, or panics on an item whose
      "id" is missing or not a string. */
  datatype Scan = Found(at: nat) | Missing | Panic(at: nat)

  function ScanFor(items: seq<Item>, id: string): (r: Scan)
    ensures r.Found? ==> FirstMatch(items, id, r.at)
    ensures r.Found? ==> forall j :: 0 <= j < r.at ==> HasStringId(items[j])
    ensures r.Missing? ==> StringIds(items) && NoMatch(items, id)
    ensures r.Panic? ==> r.at < |items| && !HasStringId(items[r.at])
    ensures r.Panic? ==> forall j :: 0 <= j < r.at ==> HasStringId(items[j]) && !Matches(items[j], id)
  {
    if |items| == 0 then Missing
    else if !HasStringId(items[0]) then Panic(0)
    else if IdEq(items[0][IdKey].s, id) then Found(0)
    else
      match ScanFor(items[1..], id)
      case Found(k) =>
        assert FirstMatch(items, id, k + 1);
        Found(k + 1)
      case Missing => Missing
      case Panic(k) => Panic(k + 1)
  }

  lemma {:induction false} StringIdsNeverPanic(items: seq<Item>, id: string)
    requires StringIds(items)
    ensures !ScanFor(items, id).Panic?
  {
    if |items| > 0 && !IdEq(items[0][IdKey].s, id) {
      assert StringIds(items[1..]);
      StringIdsNeverPanic(items[1..], id);
    }
  }

  /* ---------- AddItem ---------- */

  /** The caller's obligation for AddItem not to panic: when the named section
      already holds items, the new id must be a string and the scan must not
      reach an item without a string id before it finds a match. */
  predicate AddSafe(d: Document, name: string, decoded: Option<Item>) {
    decoded.Some? && IdKey in decoded.value && name in d && |d[name]| > 0 ==>
      decoded.value[IdKey].Text? && !ScanFor(d[name], decoded.value[IdKey].s).Panic?
  }

  /** Decodes `value` with `parse` (json.Unmarshal) and upserts it into section
      `name` by case-insensitive id. */
  function AddItem(parse: Bytes -> Option<Item>, d: Document, name: string, value: Bytes): (r: Result<Document>)
    requires AddSafe(d, name, parse(value))
    ensures parse(value).None? ==> r == Err(DecodeError)
    ensures parse(value).Some? && IdKey !in parse(value).value ==> r == Err(MissingId)
    ensures r.Ok? <==> parse(value).Some? && IdKey in parse(value).value
    ensures r.Ok? ==> r.value.Keys == d.Keys + {name}
    ensures r.Ok? ==> forall s :: s in d && s != name ==> r.value[s] == d[s]
    ensures r.Ok? && (name !in d || |d[name]| == 0) ==> r.value[name] == [parse(value).value]
  {
    match parse(value)
    case None => Err(DecodeError)
    case Some(item) =>
      if IdKey !in item then Err(MissingId)
      else if name !in d then Ok(d[name := [item]])
      else
        var c: seq<Item> := d[name];
        if |c| == 0 then Ok(d[name := c + [item]])
        else
          match ScanFor(c, item[IdKey].s)
          case Found(k) => Ok(d[name := c[k := item]])
          case _ => Ok(d[name := c + [item]])
  }

  /** An id equal up to case to an existing one replaces the first such item
      where it stands; length and every other position are unchanged. */
  lemma AddItemReplaces(parse: Bytes -> Option<Item>, d: Document, name: string, value: Bytes, k: int)
    requires AddSafe(d, name, parse(value))
    requires parse(value).Some? && HasStringId(parse(value).value)
    requires name in d && FirstMatch(d[name], parse(value).value[IdKey].s, k)
    ensures AddItem(parse, d, name, value).Ok?
    ensures var c': seq<Item> := AddItem(parse, d, name, value).value[name];
      && |c'| == |d[name]|
      && c'[k] == parse(value).value
      && forall j :: 0 <= j < |c'| && j != k ==> c'[j] == d[name][j]
  {
    var id := parse(value).value[IdKey].s;
    var r := ScanFor(d[name], id);
    assert r.Found? && r.at == k;
  }

  /** An id matching nothing in an existing section is appended at the tail;
      the old items keep their positions. */
  lemma AddItemAppends(parse: Bytes -> Option<Item>, d: Document, name: string, value: Bytes)
    requires AddSafe(d, name, parse(value))
    requires parse(value).Some? && HasStringId(parse(value).value)
    requires name in d && NoMatch(d[name], parse(value).value[IdKey].s)
    ensures AddItem(parse, d, name, value).Ok?
    ensures var c': seq<Item> := AddItem(parse, d, name, value).value[name];
      && |c'| == |d[name]| + 1
      && c'[..|d[name]|] == d[name]
      && c'[|d[name]|] == parse(value).value
  {
    var id := parse(value).value[IdKey].s;
    if |d[name]| > 0 {
      assert !ScanFor(d[name], id).Found?;
    }
  }

  /** Upserting keeps a section's ids distinct up to case, so an id never
      appears twice in a section built by AddItem alone. */
  lemma AddItemKeepsIdsDistinct(parse: Bytes -> Option<Item>, d: Document, name: string, value: Bytes)
    requires AddSafe(d, name, parse(value))
    requires parse(value).Some? && HasStringId(parse(value).value)
    requires name in d ==> DistinctIds(d[name])
    ensures AddItem(parse, d, name, value).Ok?
    ensures DistinctIds(AddItem(parse, d, name, value).value[name])
  {
    var item := parse(value).value;
    var id := item[IdKey].s;
    var c': seq<Item> := AddItem(parse, d, name, value).value[name];
    if name in d && |d[name]| > 0 {
      var c := d[name];
      var r := ScanFor(c, id);
      if r.Found? {
        AddItemReplaces(parse, d, name, value, r.at);
        forall i, j | 0 <= i < j < |c'|
          ensures !IdEq(c'[i][IdKey].s, c'[j][IdKey].s)
        {
          if i == r.at {
            assert !IdEq(c[i][IdKey].s, c[j][IdKey].s);
          } else if j == r.at {
            assert !IdEq(c[i][IdKey].s, c[j][IdKey].s);
          }
        }
      } else {
        AddItemAppends(parse, d, name, value);
        forall i, j | 0 <= i < j < |c'|
          ensures !IdEq(c'[i][IdKey].s, c'[j][IdKey].s)
        {
          if j == |c| {
            assert c'[i] == c[i];
            assert !Matches(c[i], id);
          } else {
            assert c'[i] == c[i] && c'[j] == c[j];
          }
        }
      }
    }
  }

  /** Id "ABC" replaces a stored "abc" instead of adding a second item. */
  lemma AddItemFoldsCase(parse: Bytes -> Option<Item>, value: Bytes)
    requires parse(value) == Some(map[IdKey := Text("ABC"), "code" := Opaque("2")])
    ensures var d := map["cards" := [map[IdKey := Text("abc"), "code" := Opaque("1")]]];
      AddItem(parse, d, "cards", value) == Ok(map["cards" := [parse(value).value]])
  {
    assert Fold("ABC") == "abc";
    assert Fold("abc") == "abc";
    var d := map["cards" := [map[IdKey := Text("abc"), "code" := Opaque("1")]]];
    assert ScanFor(d["cards"], "ABC") == Found(0);
    var item := parse(value).value;
    assert item[IdKey].s == "ABC";
    assert AddItem(parse, d, "cards", value) == Ok(d["cards" := d["cards"][0 := item]]);
    assert d["cards"][0 := item] == [item];
    var r: Document := d["cards" := [item]];
    assert r.Keys == {"cards"};
    assert r == map["cards" := [item]];
  }

  /* ---------- RemoveItem ---------- */

  /** The caller's obligation for RemoveItem not to panic. */
  predicate RemoveSafe(d: Document, name: string, id: string) {
    name in d && |id| > 0 ==> !ScanFor(d[name], id).Panic?
  }

  /** Deletes the first item of section `name` whose id equals `id` up to case;
      an empty `id` deletes the whole section. */
  function RemoveItem(d: Document, name: string, id: string): (r: Document)
    requires RemoveSafe(d, name, id)
    ensures name !in d ==> r == d
    ensures name in d && id == "" ==> r.Keys == d.Keys - {name}
    ensures name in d && id != "" ==> r.Keys == d.Keys
    ensures forall s :: s in d && s != name ==> s in r && r[s] == d[s]
    ensures name in d && id != "" && NoMatch(d[name], id) ==> r == d
    ensures forall k :: name in d && id != "" && FirstMatch(d[name], id, k) ==>
      r[name] == d[name][..k] + d[name][k + 1..]
  {
    if name !in d then d
    else if |id| < 1 then d - {name}
    else
      var c := d[name];
      match ScanFor(c, id)
      case Found(k) => d[name := c[..k] + c[k + 1..]]
      case _ => d[name := c]
  }

  /** Removing an item drops exactly one element and keeps the others in order. */
  lemma RemoveItemDropsOne(d: Document, name: string, id: string, k: int)
    requires RemoveSafe(d, name, id)
    requires name in d && id != "" && FirstMatch(d[name], id, k)
    ensures var c' := RemoveItem(d, name, id)[name];
      && |c'| == |d[name]| - 1
      && (forall j :: 0 <= j < k ==> c'[j] == d[name][j])
      && (forall j :: k <= j < |c'| ==> c'[j] == d[name][j + 1])
  {
  }

  lemma RemoveItemKeepsIdsDistinct(d: Document, name: string, id: string)
    requires name in d ==> DistinctIds(d[name])
    requires RemoveSafe(d, name, id)
    ensures var r := RemoveItem(d, name, id); name in r ==> DistinctIds(r[name])
  {
    var r := RemoveItem(d, name, id);
    if name in d && id != "" {
      var s := ScanFor(d[name], id);
      if s.Found? {
        var c: seq<Item> := d[name];
        var c': seq<Item> := r[name];
        RemoveItemDropsOne(d, name, id, s.at);
        forall i, j | 0 <= i < j < |c'|
          ensures !IdEq(c'[i][IdKey].s, c'[j][IdKey].s)
        {
          var i0 := if i < s.at then i else i + 1;
          var j0 := if j < s.at then j else j + 1;
          assert c'[i] == c[i0] && c'[j] == c[j0] && i0 < j0;
        }
      }
    }
  }

  /** With ids distinct up to case (as AddItem keeps them), removing twice is
      removing once: after the first call nothing matches any more. */
  lemma RemoveItemIdempotent(d: Document, name: string, id: string)
    requires name in d ==> DistinctIds(d[name])
    ensures RemoveSafe(d, name, id)
    ensures RemoveSafe(RemoveItem(d, name, id), name, id)
    ensures RemoveItem(RemoveItem(d, name, id), name, id) == RemoveItem(d, name, id)
  {
    if name in d && id != "" {
      StringIdsNeverPanic(d[name], id);
      var c := d[name];
      var s := ScanFor(c, id);
      if s.Found? {
        var r := RemoveItem(d, name, id);
        var c': seq<Item> := r[name];
        RemoveItemDropsOne(d, name, id, s.at);
        forall j | 0 <= j < |c'|
          ensures HasStringId(c'[j]) && !Matches(c'[j], id)
        {
          var j0 := if j < s.at then j else j + 1;
          assert c'[j] == c[j0];
          if j0 > s.at {
            assert !IdEq(c[s.at][IdKey].s, c[j0][IdKey].s);
          }
        }
        assert StringIds(c');
        StringIdsNeverPanic(c', id);
        assert NoMatch(c', id);
      }
    }
  }

  /** Without distinct ids the source's removal is not idempotent: two ids
      equal up to case are removed one call at a time. */
  lemma RemoveItemTwiceDiffersOnDuplicates()
    ensures var d := map["cards" := [map[IdKey := Text("a")], map[IdKey := Text("A")]]];
      && RemoveSafe(d, "cards", "a")
      && RemoveItem(d, "cards", "a") == map["cards" := [map[IdKey := Text("A")]]]
      && RemoveSafe(RemoveItem(d, "cards", "a"), "cards", "a")
      && RemoveItem(RemoveItem(d, "cards", "a"), "cards", "a") == map["cards" := []]
  {
    assert Fold("a") == "a";
    assert Fold("A") == "a";
    var d := map["cards" := [map[IdKey := Text("a")], map[IdKey := Text("A")]]];
    assert FirstMatch(d["cards"], "a", 0);
    assert ScanFor(d["cards"], "a") == Found(0);
    var d1 := map["cards" := [map[IdKey := Text("A")]]];
    assert d["cards"][..0] + d["cards"][1..] == d1["cards"];
    assert ScanFor(d1["cards"], "a") == Found(0);
  }

  /* ---------- IsEmpty ---------- */

  /** A document with no items in any section (or no sections at all). */
  predicate Empty(d: Document) {
    forall s :: s in d ==> |d[s]| == 0
  }

  /** The early-returning loop over all sections. */
  method IsEmpty(d: Document) returns (r: bool)
    ensures r <==> Empty(d)
    ensures r <==> forall s :: s in d ==> d[s] == []
  {
    var rest := d.Keys;
    while rest != {}
      invariant rest <= d.Keys
      invariant forall s :: s in d && s !in rest ==> |d[s]| == 0
      decreases rest
    {
      var s :| s in rest;
      if |d[s]| > 0 {
        return false;
      }
      rest := rest - {s};
    }
    return true;
  }
}

=== FILE: entries.dfy ===
/** The orchestrator: every entry's document, the per-entry JSON cache, the
    hash index and its JSON cache, kept over a key-value store that the
    entry's documents are written through to. Each operation is one atomic
    step from state to state. */
module Entries {
  import opened Common
  import Docs
  import Indexes

  /** The foreign calls the orchestrator makes, as uninterpreted functions. */
  datatype Codec = Codec(
    parseItem: Bytes -> Option<Docs.Item>,     // json.Unmarshal of one item
    parseDoc: Bytes -> Option<Docs.Document>,  // Document.Load
    serDoc: Docs.Document -> Bytes,            // Document.ToJson
    serIndex: Indexes.Index -> Bytes,          // json.Marshal of Index.ToJson's records
    hash: Bytes -> string)                     // Md5Bytes: lower-case hex MD5

  /** Loading what was serialised gives the document back. */
  ghost predicate RoundTrip(c: Codec) {
    forall d :: c.parseDoc(c.serDoc(d)) == Some(d)
  }

  /** The state the Entry struct holds, with the opened store as a map. */
  datatype Entry = Entry(
    entries: map<string, Docs.Document>,
    entryCache: map<string, Bytes>,
    index: Indexes.Index,
    indexCache: Bytes,
    store: map<string, Bytes>)

  /** The state after a mutating operation and the error it returns. */
  datatype Step = Step(next: Entry, outcome: Outcome)

  /** The state after a read (which may fill a cache) and what it returns. */
  datatype Read = Read(next: Entry, result: Result<Bytes>)

  /** NewEntry: nothing loaded, nothing cached, no store contents. */
  const Fresh := Entry(map[], map[], map[], [], map[])

  /** m' is m with key k taken out and nothing else changed. */
  predicate Without<V(==)>(m': map<string, V>, m: map<string, V>, k: string) {
    && m'.Keys == m.Keys - {k}
    && forall x :: x in m' ==> m'[x] == m[x]
  }

  /** Every map of the state other than at `entry` is as in `e`. */
  predicate Elsewhere(n: Entry, e: Entry, entry: string) {
    && n.entries - {entry} == e.entries - {entry}
    && n.store - {entry} == e.store - {entry}
    && n.entryCache - {entry} == e.entryCache - {entry}
    && n.index - {entry} == e.index - {entry}
  }

  /** Entries, entry cache and index have the same names, all of them stored. */
  predicate KeysAgree(e: Entry) {
    && e.entryCache.Keys == e.entries.Keys
    && e.index.Keys == e.entries.Keys
    && e.entries.Keys <= e.store.Keys
  }

  /** Each entry's cache is its document's serialisation and its index hash is
      the hash of what the store holds for it. */
  predicate CachesFresh(c: Codec, e: Entry) {
    forall k :: k in e.entries ==>
      && k in e.entryCache && e.entryCache[k] == c.serDoc(e.entries[k])
      && k in e.index && k in e.store && e.index[k] == c.hash(e.store[k])
  }

  /** The store holds each entry's document, and every other stored key is a
      document that does not decode (one skipped at load time). */
  predicate StoreHolds(c: Codec, e: Entry) {
    forall k :: k in e.store ==>
      c.parseDoc(e.store[k]) == if k in e.entries then Some(e.entries[k]) else None
  }

  /** A non-empty index cache is the serialisation of the index. */
  predicate IndexCacheFresh(c: Codec, e: Entry) {
    |e.indexCache| > 0 ==> e.indexCache == c.serIndex(e.index)
  }

  /** The consistency of documents, caches, index and store that every
      operation keeps while the store calls succeed. */
  predicate Coherent(c: Codec, e: Entry) {
    && KeysAgree(e)
    && CachesFresh(c, e)
    && StoreHolds(c, e)
    && IndexCacheFresh(c, e)
  }

  /* ---------- startup ---------- */

  /** One turn of LoadEntry's loop: a stored document that decodes gets its
      hash indexed, its document kept and its serialisation cached; one that
      does not is skipped. */
  function Admit(c: Codec, e: Entry, k: string, v: Bytes): Entry {
    match c.parseDoc(v)
    case None => e
    case Some(doc) =>
      e.(index := Indexes.Add(e.index, k, c.hash(v)),
         entries := e.entries[k := doc],
         entryCache := e.entryCache[k := c.serDoc(doc)])
  }

  /** What LoadEntry has built after visiting the stored keys in `done`. */
  ghost predicate LoadedSoFar(c: Codec, e: Entry, m: map<string, Bytes>, done: set<string>) {
    && e.store == m && e.indexCache == []
    && (forall k :: k in e.entries <==> k in done && k in m && c.parseDoc(m[k]).Some?)
    && KeysAgree(e)
    && CachesFresh(c, e)
    && (forall k :: k in e.entries ==> c.parseDoc(m[k]) == Some(e.entries[k]))
  }

  lemma AdmitExtends(c: Codec, e: Entry, m: map<string, Bytes>, done: set<string>, k: string)
    requires LoadedSoFar(c, e, m, done)
    requires k in m
    ensures LoadedSoFar(c, Admit(c, e, k, m[k]), m, done + {k})
  {
    var v := m[k];
    if c.parseDoc(v).Some? {
      Indexes.AddIsUpdate(e.index, k, c.hash(v));
    }
  }

  lemma LoadedAllIsCoherent(c: Codec, e: Entry, m: map<string, Bytes>)
    requires LoadedSoFar(c, e, m, m.Keys)
    ensures Coherent(c, e)
    ensures Coherent(c, e.(indexCache := c.serIndex(e.index)))
  {
    assert StoreHolds(c, e);
  }

  /** LoadEntry on a fresh Entry. `scan` is what the opened store's full
      iteration returned, None when opening or reading failed. Stored
      documents that do not decode are skipped; the index hashes the stored
      bytes while the cache holds the re-serialised document. */
  method LoadEntry(c: Codec, scan: Option<map<string, Bytes>>) returns (e: Entry, outcome: Outcome)
    ensures scan.None? ==> e == Fresh && outcome == Fail(StoreError)
    ensures scan.Some? ==> outcome == Pass && e.store == scan.value
    ensures scan.Some? ==> forall k :: k in e.entries <==> k in scan.value && c.parseDoc(scan.value[k]).Some?
    ensures scan.Some? ==> forall k :: k in e.index ==> k in scan.value && e.index[k] == c.hash(scan.value[k])
    ensures scan.Some? ==> (|e.indexCache| > 0 <==> |e.index| > 0 && |c.serIndex(e.index)| > 0)
    ensures scan.Some? ==> Coherent(c, e)
  {
    if scan.None? {
      return Fresh, Fail(StoreError);
    }
    var m := scan.value;
    e := Fresh.(store := m);
    var rest := m.Keys;
    while rest != {}
      invariant rest <= m.Keys
      invariant LoadedSoFar(c, e, m, m.Keys - rest)
      decreases rest
    {
      var k :| k in rest;
      AdmitExtends(c, e, m, m.Keys - rest, k);
      e := Admit(c, e, k, m[k]);
      rest := rest - {k};
      assert m.Keys - rest == (m.Keys - (rest + {k})) + {k};
    }
    LoadedAllIsCoherent(c, e, m);
    if !Indexes.IsEmpty(e.index) {
      e := e.(indexCache := c.serIndex(e.index));
    }
    outcome := Pass;
  }

  /** The entries cover the whole store exactly when every stored document
      decodes, and then all four key sets are equal. */
  lemma KeySetsAgree(c: Codec, e: Entry)
    requires Coherent(c, e)
    ensures (forall k :: k in e.store ==> c.parseDoc(e.store[k]).Some?) <==> e.entries.Keys == e.store.Keys
    ensures (forall k :: k in e.store ==> c.parseDoc(e.store[k]).Some?) ==>
      e.entries.Keys == e.entryCache.Keys == e.index.Keys == e.store.Keys
  {
  }

  /* ---------- write-through ---------- */

  /** commit: serialise the document and write it through; only a successful
      write refreshes the index hash, the entry cache and the index cache.
      The document itself is never touched. */
  function Commit(c: Codec, e: Entry, entry: string, writeOk: bool): (s: Step)
    ensures s.next.entries == e.entries
    ensures Elsewhere(s.next, e, entry)
    ensures s.outcome.Fail? <==> entry in e.entries && !writeOk
    ensures s.outcome.Fail? ==> s.outcome.error == StoreError
    ensures entry !in e.entries || !writeOk ==> s.next == e
    ensures entry in e.entries && writeOk ==>
      var data := c.serDoc(e.entries[entry]);
      && s.next.store == e.store[entry := data]
      && s.next.entryCache == e.entryCache[entry := data]
      && Indexes.Get(s.next.index, entry) == (c.hash(data), true)
      && (forall n :: n != entry ==> Indexes.Get(s.next.index, n) == Indexes.Get(e.index, n))
      && s.next.indexCache == c.serIndex(s.next.index)
  {
    if entry !in e.entries then Step(e, Pass)
    else
      var data := c.serDoc(e.entries[entry]);
      if !writeOk then Step(e, Fail(StoreError))
      else
        var index := Indexes.Add(e.index, entry, c.hash(data));
        Step(e.(store := e.store[entry := data],
                index := index,
                entryCache := e.entryCache[entry := data],
                indexCache := c.serIndex(index)),
             Pass)
  }

  /** deleteEntry: delete from the store first; only a successful delete
      drops the document, its cache and its hash, and clears (does not
      recompute) the index cache. */
  function DeleteEntry(e: Entry, entry: string, deleteOk: bool): (s: Step)
    ensures !deleteOk ==> s == Step(e, Fail(StoreError))
    ensures deleteOk ==> s.outcome == Pass
    ensures Elsewhere(s.next, e, entry)
    ensures deleteOk ==>
      && Without(s.next.store, e.store, entry)
      && Without(s.next.entries, e.entries, entry)
      && Without(s.next.entryCache, e.entryCache, entry)
      && Without(s.next.index, e.index, entry)
      && s.next.indexCache == []
  {
    if !deleteOk then Step(e, Fail(StoreError))
    else
      Step(Entry(e.entries - {entry},
                 e.entryCache - {entry},
                 Indexes.Remove(e.index, entry),
                 [],
                 e.store - {entry}),
           Pass)
  }

  /* ---------- the public operations ---------- */

  /** RemoveEntry: the store delete decides; an entry that does not exist is
      deleted successfully all the same (the store reports no error for a
      missing key) and still clears the index cache. */
  function RemoveEntry(e: Entry, entry: string, deleteOk: bool): (s: Step)
    ensures s.outcome == Pass <==> deleteOk
    ensures s.outcome == Pass ==> entry !in s.next.entries && entry !in s.next.entryCache
    ensures s.outcome == Pass ==> Indexes.Get(s.next.index, entry) == ("", false)
    ensures s.outcome == Pass ==>
      && Without(s.next.store, e.store, entry)
      && Without(s.next.entries, e.entries, entry)
      && Without(s.next.entryCache, e.entryCache, entry)
      && Without(s.next.index, e.index, entry)
      && s.next.indexCache == []
    ensures s.outcome != Pass ==> s.next == e
  {
    DeleteEntry(e, entry, deleteOk)
  }

  /** The document AddItem works on: the entry's, or a new empty one. */
  function DocOf(e: Entry, entry: string): Docs.Document {
    if entry in e.entries then e.entries[entry] else map[]
  }

  /** AddItem: upsert into the entry's document (creating the entry), then
      commit. A rejected item changes nothing; a failed write keeps the
      changed document but leaves store, caches and index as they were. */
  function AddItem(c: Codec, e: Entry, entry: string, name: string, value: Bytes, writeOk: bool): (s: Step)
    requires Docs.AddSafe(DocOf(e, entry), name, c.parseItem(value))
    ensures c.parseItem(value).None? ==> s == Step(e, Fail(DecodeError))
    ensures c.parseItem(value).Some? && Docs.IdKey !in c.parseItem(value).value ==> s == Step(e, Fail(MissingId))
    ensures s.outcome == Pass <==> c.parseItem(value).Some? && Docs.IdKey in c.parseItem(value).value && writeOk
    ensures c.parseItem(value).Some? && Docs.IdKey in c.parseItem(value).value && !writeOk ==>
      s.outcome == Fail(StoreError)
    ensures c.parseItem(value).Some? && Docs.IdKey in c.parseItem(value).value ==>
      s.next.entries == e.entries[entry := Docs.AddItem(c.parseItem, DocOf(e, entry), name, value).value]
    ensures s.outcome != Pass ==>
      && s.next.store == e.store && s.next.index == e.index
      && s.next.entryCache == e.entryCache && s.next.indexCache == e.indexCache
    ensures s.outcome == Pass ==>
      && entry in s.next.entries && entry in s.next.store && entry in s.next.entryCache
      && s.next.store[entry] == s.next.entryCache[entry] == c.serDoc(s.next.entries[entry])
      && Indexes.Get(s.next.index, entry) == (c.hash(s.next.store[entry]), true)
      && s.next.indexCache == c.serIndex(s.next.index)
    ensures s.outcome == Pass ==>
      && s.next.store == e.store[entry := s.next.store[entry]]
      && s.next.entryCache == e.entryCache[entry := s.next.entryCache[entry]]
      && forall n :: n != entry ==> Indexes.Get(s.next.index, n) == Indexes.Get(e.index, n)
  {
    match Docs.AddItem(c.parseItem, DocOf(e, entry), name, value)
    case Err(err) => Step(e, Fail(err))
    case Ok(d) => Commit(c, e.(entries := e.entries[entry := d]), entry, writeOk)
  }

  /** RemoveItem: nothing happens for an unknown entry; otherwise the item
      (or section) is removed from the document, and the entry is deleted if
      that left the document empty, or committed if not. */
  function RemoveItem(c: Codec, e: Entry, entry: string, name: string, id: string, storeOk: bool): (s: Step)
    requires entry in e.entries ==> Docs.RemoveSafe(e.entries[entry], name, id)
    ensures entry !in e.entries ==> s == Step(e, Pass)
    ensures entry in e.entries ==> (s.outcome == Pass <==> storeOk)
    ensures s.outcome.Fail? ==> s.outcome == Fail(StoreError)
    ensures s.outcome.Fail? ==>
      && s.next.store == e.store && s.next.index == e.index
      && s.next.entryCache == e.entryCache && s.next.indexCache == e.indexCache
    ensures entry in e.entries && entry in s.next.entries ==>
      s.next.entries[entry] == Docs.RemoveItem(e.entries[entry], name, id)
    ensures entry in e.entries && s.outcome.Fail? ==>
      s.next.entries == e.entries[entry := Docs.RemoveItem(e.entries[entry], name, id)]
    ensures entry in e.entries && s.outcome == Pass ==>
      (entry in s.next.entries <==> !Docs.Empty(Docs.RemoveItem(e.entries[entry], name, id)))
    ensures Elsewhere(s.next, e, entry)
    ensures entry in e.entries && s.outcome == Pass ==>
      if entry in s.next.entries then
        && !Docs.Empty(s.next.entries[entry])
        && entry in s.next.store && entry in s.next.entryCache
        && s.next.store[entry] == s.next.entryCache[entry] == c.serDoc(s.next.entries[entry])
        && Indexes.Get(s.next.index, entry) == (c.hash(s.next.store[entry]), true)
        && s.next.indexCache == c.serIndex(s.next.index)
      else
        && entry !in s.next.store && entry !in s.next.entryCache && entry !in s.next.index
        && s.next.indexCache == []
  {
    if entry !in e.entries then Step(e, Pass)
    else
      var d := Docs.RemoveItem(e.entries[entry], name, id);
      var e' := e.(entries := e.entries[entry := d]);
      if Docs.Empty(d) then DeleteEntry(e', entry, storeOk)
      else Commit(c, e', entry, storeOk)
  }

  /** ToJson: the cached bytes if any; otherwise the serialised document,
      which is cached on the way out; errNullEntry for an unknown entry. */
  function ToJson(c: Codec, e: Entry, entry: string): (r: Read)
    ensures entry in e.entryCache ==> r == Read(e, Ok(e.entryCache[entry]))
    ensures entry !in e.entryCache && entry !in e.entries ==> r == Read(e, Err(NullEntry))
    ensures entry !in e.entryCache && entry in e.entries ==>
      && r.result == Ok(c.serDoc(e.entries[entry]))
      && r.next == e.(entryCache := e.entryCache[entry := r.result.value])
  {
    if entry in e.entryCache then Read(e, Ok(e.entryCache[entry]))
    else if entry !in e.entries then Read(e, Err(NullEntry))
    else
      var j := c.serDoc(e.entries[entry]);
      Read(e.(entryCache := e.entryCache[entry := j]), Ok(j))
  }

  /** IndexToJson: a non-empty index cache as is; otherwise the serialised
      index, which becomes the new cache. */
  function IndexToJson(c: Codec, e: Entry): (r: Read)
    ensures r.result.Ok?
    ensures |e.indexCache| > 0 ==> r == Read(e, Ok(e.indexCache))
    ensures |e.indexCache| == 0 ==> r.result.value == c.serIndex(e.index) && r.next == e.(indexCache := r.result.value)
  {
    if |e.indexCache| > 0 then Read(e, Ok(e.indexCache))
    else
      var j := c.serIndex(e.index);
      Read(e.(indexCache := j), Ok(j))
  }

  /* ---------- coherence is kept while the store calls succeed ---------- */

  lemma CommitKeepsCoherence(c: Codec, e: Entry, entry: string, d: Docs.Document)
    requires RoundTrip(c)
    requires Coherent(c, e)
    ensures Coherent(c, Commit(c, e.(entries := e.entries[entry := d]), entry, true).next)
  {
    var data := c.serDoc(d);
    var n := Commit(c, e.(entries := e.entries[entry := d]), entry, true).next;
    Indexes.AddIsUpdate(e.index, entry, c.hash(data));
    assert n.entries == e.entries[entry := d];
    assert n.entryCache == e.entryCache[entry := data];
    assert n.index == e.index[entry := c.hash(data)];
    assert n.store == e.store[entry := data];
    assert KeysAgree(n);
    assert CachesFresh(c, n);
    assert StoreHolds(c, n) by {
      assert c.parseDoc(data) == Some(d);
    }
  }

  /** A successful delete keeps the state coherent, whatever document the
      entry held in memory just before. */
  lemma DeleteKeepsCoherence(c: Codec, e: Entry, entry: string, d: Docs.Document, deleteOk: bool)
    requires Coherent(c, e)
    requires deleteOk
    ensures Coherent(c, DeleteEntry(e.(entries := e.entries[entry := d]), entry, deleteOk).next)
  {
  }

  lemma AddItemKeepsCoherence(c: Codec, e: Entry, entry: string, name: string, value: Bytes)
    requires RoundTrip(c)
    requires Coherent(c, e)
    requires Docs.AddSafe(DocOf(e, entry), name, c.parseItem(value))
    ensures Coherent(c, AddItem(c, e, entry, name, value, true).next)
  {
    match Docs.AddItem(c.parseItem, DocOf(e, entry), name, value)
    case Err(_) =>
    case Ok(d) => CommitKeepsCoherence(c, e, entry, d);
  }

  lemma RemoveItemKeepsCoherence(c: Codec, e: Entry, entry: string, name: string, id: string)
    requires RoundTrip(c)
    requires Coherent(c, e)
    requires entry in e.entries ==> Docs.RemoveSafe(e.entries[entry], name, id)
    ensures Coherent(c, RemoveItem(c, e, entry, name, id, true).next)
  {
    if entry in e.entries {
      var d := Docs.RemoveItem(e.entries[entry], name, id);
      if Docs.Empty(d) {
        DeleteKeepsCoherence(c, e, entry, d, true);
      } else {
        CommitKeepsCoherence(c, e, entry, d);
      }
    }
  }

  lemma RemoveEntryKeepsCoherence(c: Codec, e: Entry, entry: string, deleteOk: bool)
    requires Coherent(c, e)
    ensures Coherent(c, RemoveEntry(e, entry, deleteOk).next)
  {
  }

  /** With coherent state, reading an entry never changes the state and
      always returns the live document's serialisation, which loads back to
      the live document. */
  lemma ToJsonServesLiveDocument(c: Codec, e: Entry, entry: string)
    requires RoundTrip(c)
    requires Coherent(c, e)
    ensures ToJson(c, e, entry).next == e
    ensures entry in e.entries ==>
      && ToJson(c, e, entry).result == Ok(c.serDoc(e.entries[entry]))
      && c.parseDoc(ToJson(c, e, entry).result.value) == Some(e.entries[entry])
    ensures entry !in e.entries ==> ToJson(c, e, entry).result == Err(NullEntry)
  {
    if entry in e.entries {
      assert c.parseDoc(c.serDoc(e.entries[entry])) == Some(e.entries[entry]);
    }
  }

  /** With coherent state, the index read is always the live index's
      serialisation, and filling the cache keeps the state coherent. */
  lemma IndexToJsonServesLiveIndex(c: Codec, e: Entry)
    requires Coherent(c, e)
    ensures IndexToJson(c, e).result == Ok(c.serIndex(e.index))
    ensures Coherent(c, IndexToJson(c, e).next)
  {
  }

  /* ---------- what a failed store call leaves behind ---------- */

  /** The document change of a failed AddItem is not rolled back: the cache
      still serves the old document, which no longer loads to the live one. */
  lemma FailedWriteLeavesStaleCache(c: Codec, e: Entry, entry: string, name: string, value: Bytes)
    requires RoundTrip(c)
    requires Coherent(c, e)
    requires entry in e.entries
    requires Docs.AddSafe(e.entries[entry], name, c.parseItem(value))
    requires Docs.AddItem(c.parseItem, e.entries[entry], name, value).Ok?
    requires Docs.AddItem(c.parseItem, e.entries[entry], name, value).value != e.entries[entry]
    ensures var s := AddItem(c, e, entry, name, value, false);
      && s.outcome == Fail(StoreError)
      && s.next.entries[entry] == Docs.AddItem(c.parseItem, e.entries[entry], name, value).value
      && ToJson(c, s.next, entry).result == Ok(e.entryCache[entry])
      && c.parseDoc(ToJson(c, s.next, entry).result.value) != Some(s.next.entries[entry])
      && !Coherent(c, s.next)
  {
    var d := Docs.AddItem(c.parseItem, e.entries[entry], name, value).value;
    var s := AddItem(c, e, entry, name, value, false);
    assert c.parseDoc(c.serDoc(e.entries[entry])) == Some(e.entries[entry]);
    assert s.next.entryCache[entry] == c.serDoc(e.entries[entry]);
    assert c.parseDoc(c.serDoc(d)) == Some(d);
  }

  /** A failed AddItem that creates an entry leaves a document that the store
      and the index do not have, yet ToJson serves it. */
  lemma FailedCreateServesUnstoredDocument(c: Codec, e: Entry, entry: string, name: string, value: Bytes)
    requires Coherent(c, e)
    requires entry !in e.entries && entry !in e.store
    requires c.parseItem(value).Some? && Docs.IdKey in c.parseItem(value).value
    ensures var s := AddItem(c, e, entry, name, value, false);
      && s.outcome == Fail(StoreError)
      && entry in s.next.entries
      && entry !in s.next.store && entry !in s.next.index
      && ToJson(c, s.next, entry).result == Ok(c.serDoc(s.next.entries[entry]))
  {
  }

  /** RemoveItem that empties the document deletes the entry everywhere; if
      the delete fails the emptied document stays while store, caches and
      index still describe the old one. */
  lemma RemoveItemDeletesEmptied(c: Codec, e: Entry, entry: string, name: string, id: string, storeOk: bool)
    requires entry in e.entries
    requires Docs.RemoveSafe(e.entries[entry], name, id)
    requires Docs.Empty(Docs.RemoveItem(e.entries[entry], name, id))
    ensures var s := RemoveItem(c, e, entry, name, id, storeOk);
      && (storeOk ==>
          && s.outcome == Pass
          && entry !in s.next.entries && entry !in s.next.entryCache
          && entry !in s.next.index && entry !in s.next.store
          && s.next.indexCache == [])
      && (!storeOk ==>
          && s.outcome == Fail(StoreError)
          && s.next.entries[entry] == Docs.RemoveItem(e.entries[entry], name, id)
          && s.next.store == e.store && s.next.entryCache == e.entryCache)
  {
  }

  /** After a successful RemoveEntry the entry reads as not found and is not
      in the index. */
  lemma RemovedEntryIsNotFound(c: Codec, e: Entry, entry: string)
    ensures var n := RemoveEntry(e, entry, true).next;
      && ToJson(c, n, entry).result == Err(NullEntry)
      && Indexes.Get(n.index, entry).1 == false
  {
  }

  /** The life of one entry from an empty store: add an item, read it and the
      index back, remove the item, and the entry is gone. */
  lemma EntryLifecycle(c: Codec, item: Bytes)
    requires RoundTrip(c)
    requires c.parseItem(item) == Some(map[Docs.IdKey := Docs.Text("1"), "code" := Docs.Text("1212")])
    ensures var s1 := AddItem(c, Fresh, "facility-1", "cards", item, true);
      var doc := map["cards" := [c.parseItem(item).value]];
      && s1.outcome == Pass
      && s1.next.entries == map["facility-1" := doc]
      && ToJson(c, s1.next, "facility-1").result == Ok(c.serDoc(doc))
      && IndexToJson(c, s1.next).result == Ok(c.serIndex(map["facility-1" := c.hash(c.serDoc(doc))]))
      && var s2 := RemoveItem(c, s1.next, "facility-1", "cards", "1", true);
      && s2.outcome == Pass
      && ToJson(c, s2.next, "facility-1").result == Err(NullEntry)
      && IndexToJson(c, s2.next).result == Ok(c.serIndex(map[]))
  {
    var it := c.parseItem(item).value;
    var doc := map["cards" := [it]];
    assert Docs.AddItem(c.parseItem, map[], "cards", item) == Ok(doc);
    var s1 := AddItem(c, Fresh, "facility-1", "cards", item, true);
    assert s1.next.index == map["facility-1" := c.hash(c.serDoc(doc))];
    assert Docs.Fold("1") == "1";
    assert Docs.ScanFor(doc["cards"], "1") == Docs.Found(0);
    assert Docs.RemoveItem(doc, "cards", "1") == map["cards" := []];
    var s2 := RemoveItem(c, s1.next, "facility-1", "cards", "1", true);
    assert s2.next.index == map[];
  }
}

=== FILE: indexes.dfy ===
/** The catalogue of all entries: entry name to the content hash of its last
    stored serialisation, used by callers to see which entries changed. */
module Indexes {

  type Index = map<string, string>

  /** One element of the serialised index, {"name": ..., "hash": ...}. */
  datatype Record = Record(name: string, hash: string)

  /** The comma-ok lookup: the hash and true, or "" and false. */
  function Get(i: Index, name: string): (r: (string, bool))
    ensures r.1 <==> name in i
    ensures r.1 ==> r.0 == i[name]
    ensures !r.1 ==> r.0 == ""
  {
    if name in i then (i[name], true) else ("", false)
  }

  /** Unconditional upsert. */
  function Add(i: Index, name: string, hash: string): (r: Index)
    ensures Get(r, name) == (hash, true)
    ensures forall n :: n != name ==> Get(r, n) == Get(i, n)
    ensures r.Keys == i.Keys + {name}
  {
    (i - {name})[name := hash]
  }

  /** Deletes the name if present. */
  function Remove(i: Index, name: string): (r: Index)
    ensures Get(r, name) == ("", false)
    ensures forall n :: n != name ==> Get(r, n) == Get(i, n)
    ensures name !in i ==> r == i
    ensures r.Keys == i.Keys - {name}
  {
    i - {name}
  }

  predicate IsEmpty(i: Index)
    ensures IsEmpty(i) <==> forall n :: n !in i
  {
    |i| < 1
  }

  /** Add is the plain map update. */
  lemma AddIsUpdate(i: Index, name: string, hash: string)
    ensures Add(i, name, hash) == i[name := hash]
  {
  }

  /** Adding then removing a name that was absent gives back the index. */
  lemma AddRemoveCancel(i: Index, name: string, hash: string)
    requires name !in i
    ensures Remove(Add(i, name, hash), name) == i
  {
  }

  /** The record list json.Marshal is given: one record per name, in Go's
      unspecified map order, which the loop reflects by taking any remaining
      name next. */
  method ToJson(i: Index) returns (rs: seq<Record>)
    ensures |rs| == |i|
    ensures forall j :: 0 <= j < |rs| ==> rs[j].name in i && i[rs[j].name] == rs[j].hash
    ensures forall j, k :: 0 <= j < k < |rs| ==> rs[j].name != rs[k].name
    ensures forall n :: n in i ==> exists j :: 0 <= j < |rs| && rs[j] == Record(n, i[n])
  {
    rs := [];
    var rest := i.Keys;
    while rest != {}
      invariant rest <= i.Keys
      invariant |rs| + |rest| == |i|
      invariant forall j :: 0 <= j < |rs| ==> rs[j].name in i && rs[j].name !in rest && i[rs[j].name] == rs[j].hash
      invariant forall j, k :: 0 <= j < k < |rs| ==> rs[j].name != rs[k].name
      invariant forall n :: n in i && n !in rest ==> exists j :: 0 <= j < |rs| && rs[j] == Record(n, i[n])
      decreases rest
    {
      var n :| n in rest;
      var before := rs;
      rs := rs + [Record(n, i[n])];
      assert rs[|before|] == Record(n, i[n]);
      forall m | m in i && m !in rest - {n}
        ensures exists j :: 0 <= j < |rs| && rs[j] == Record(m, i[m])
      {
        if m != n {
          var j :| 0 <= j < |before| && before[j] == Record(m, i[m]);
          assert rs[j] == before[j];
        }
      }
      rest := rest - {n};
    }
  }
}
